=== FILE: README.md ===
# Portfolio animation core in Dafny

A model of the small stateful pieces inside a React portfolio page: the
one-shot reveal hook, the count-up animator, the rotating-text index, the
scroll progress bar and its frame throttle, the trailing custom cursor, the
headline typewriter, the project category filter, the per-section visibility
map, the Aurora canvas helpers and the profile-card tilt.

Each browser input is an explicit argument of a pure step function: an
intersection callback carries its entry's `isIntersecting` flag, an animation
frame carries its timestamp (or the metrics it reads), and a pointer move
carries its coordinates. A requested-but-not-yet-run animation frame is a
`pending` flag or count in the component's state. Geometry is over `real` and
states the exact-arithmetic intent of the code, not IEEE-754 rounding. The
exponential ease `1 - 2^(-10p)` of the counter is a function parameter
constrained by `CountUp.ValidEase`: `ease(0) = 0`, values in [0, 1] and
monotone on [0, 1]. The curve itself reaches only `1 - 2^-10` at `p = 1`; the
hook's own `p === 1 ? 1 : …` branch, modelled by `CountUp.Eased`, supplies the
final 1.

One module per component:

| file | module | component |
|---|---|---|
| `in_view.dfy` | `InView` | `useInView` latch |
| `count_up.dfy` | `CountUp` | `useCountUp` start gate and frame loop |
| `rotating_text.dfy` | `RotatingText` | `useRotatingText` index |
| `scroll_progress.dfy` | `ScrollProgress` | progress formula and `ticking` throttle |
| `cursor.dfy` | `Cursor` | `CustomCursor` smoothing, styles and fine-pointer gate |
| `typewriter.dfy` | `Typewriter` | headline typing interval |
| `project_filter.dfy` | `ProjectFilter` | `filteredProjects` |
| `section_visibility.dfy` | `SectionVisibility` | `isVisible` map updates |
| `aurora.dfy` | `Aurora` | gradient stop offsets and time accumulator |
| `profile_card.dfy` | `ProfileCard` | pointer-to-percent tilt |
| `wrappers.dfy` | `Wrappers` | `Option` and `Result` |
| `real_math.dfy` | `RealMath` | `Min`, `Max`, `Abs` and helper facts about products, quotients, scaling and `Floor` of reals |

Where the component's intended behaviour and its code differ, the model follows the code:

- The scroll progress is not clamped to [0, 100]. `ScrollProgress.NotClamped`
  shows that overscroll leaves the range.
- A reveal fires on the entry's `isIntersecting` flag. The hooks do not compare
  the intersection ratio with the threshold themselves; the threshold is only
  handed to the observer.
- The counter can start without a visibility trigger (`startOnView = false`).
- A first animation frame with timestamp 0 does not fix the counter's start
  time, because `!startTime` is true for 0 as well as for `undefined`. The next
  frame then fixes it. `CountUp.StartFor` models this, and the monotonicity
  proof covers it.

## Model

| member | source | states |
|---|---|---|
| InView.Mount | src/hooks/useAnimations.ts:5-13 | `inView` starts false; an observer watches the element only when the ref is attached |
| InView.Step | src/hooks/useAnimations.ts:10 | a non-intersecting entry changes nothing; an intersecting entry sets `inView` and stops observing; `inView` is never cleared |
| InView.Disconnect | src/hooks/useAnimations.ts:14 | cleanup stops observation and keeps `inView` |
| InView.RunKeepsInView | src/hooks/useAnimations.ts:5-10 | once true, `inView` stays true over any sequence of callbacks |
| InView.RunRevealsIff | src/hooks/useAnimations.ts:9-13 | from mount, the element is revealed exactly when some callback reported an intersection |
| InView.UnobservedIgnoresEvents | src/hooks/useAnimations.ts:10 | after unobserve, later callbacks have no effect |
| InView.RevealsAtMostOnce | src/hooks/useAnimations.ts:10 | the latch flips at most once, and never after it is set |
| InView.RevealsExactlyOnce | src/hooks/useAnimations.ts:5-13 | from mount, the latch flips exactly once when some callback reports an intersection, and never otherwise |
| CountUp.Mount | src/hooks/useAnimations.ts:20-45 | count starts at 0; `started` is `!startOnView`; no observer without `startOnView`; a frame is requested at once when already started |
| CountUp.Visible | src/hooks/useAnimations.ts:27-31 | the first intersecting entry starts the loop with a fresh start time and unobserves; a started counter never restarts |
| CountUp.Progress | src/hooks/useAnimations.ts:40 | `p` never exceeds 1, is non-negative once the timestamp is not before the start, and is 1 exactly when the duration has elapsed |
| CountUp.StartFor | src/hooks/useAnimations.ts:39 | a frame starts from the closure's start time unless it is unset or 0, and then from its own timestamp; a start of 0 is only ever kept from a timestamp of 0 |
| CountUp.Eased | src/hooks/useAnimations.ts:41 | eased progress is exactly 1 on completion, 0 at the start and within [0, 1] for a valid ease |
| CountUp.Sample | src/hooks/useAnimations.ts:42 | the count is exactly `end` on completion and 0 at progress 0 |
| CountUp.Frame | src/hooks/useAnimations.ts:38-45 | a frame fixes the start time on first use; no frame is requested exactly when the duration has elapsed, and then the count is exactly `end` |
| CountUp.FrameBounds | src/hooks/useAnimations.ts:40-42 | with a valid ease and `end >= 0`, a frame's count lies in [0, end] |
| CountUp.SampleMonotone | src/hooks/useAnimations.ts:41-42 | larger progress never shows a smaller count, and the count never exceeds `end` |
| CountUp.Reconfigure | src/hooks/useAnimations.ts:34-47 | a change of `end` or `duration` cancels the requested frame; a started counter restarts its loop with no start time and keeps its count |
| CountUp.ReconfigureRestarts | src/hooks/useAnimations.ts:38-47 | the first frame after a reconfiguration shows 0, so a positive count falls |
| CountUp.Samples | src/hooks/useAnimations.ts:38-45 | at most one count per timestamp, none once no frame is requested, and the first is that frame's count |
| CountUp.FrameStep | src/hooks/useAnimations.ts:38-43 | one frame of a running loop with a later timestamp never lowers the count |
| CountUp.SamplesFromRunning | src/hooks/useAnimations.ts:38-43 | every later sample of a running loop is between the current count and `end`, in non-decreasing order |
| CountUp.SamplesMonotone | src/hooks/useAnimations.ts:34-47 | for non-decreasing timestamps the published counts start at 0, never decrease and never exceed `end` |
| CountUp.StopsAtEnd | src/hooks/useAnimations.ts:41-43 | when the loop stops before the frames run out, its last count is exactly `end` |
| CountUp.TickFrame | src/hooks/useAnimations.ts:39-43 | under a uniform clock, a frame keeps the start time and stops requesting frames exactly at the tick where the duration is reached |
| CountUp.UniformTail | src/hooks/useAnimations.ts:38-45 | under a uniform clock, the remaining frames publish one count per tick up to the end of the duration, the last equal to `end`, and none on later ticks |
| CountUp.UniformTicksFinish | src/hooks/useAnimations.ts:34-47 | a duration spanning `n` clock steps yields exactly `n + 1` counts however many later ticks follow, the last equal to `end` |
| CountUp.TwelveInTenTicks | src/hooks/useAnimations.ts:19-47 | target 12 over 1000 ms with 100 ms ticks shows 12 on the eleventh frame and publishes nothing on any later tick |
| RotatingText.Tick | src/hooks/useAnimations.ts:54 | a tick wraps a numeric index into `[0, len)`; with no words it becomes NaN, and a NaN index stays NaN even once words exist |
| RotatingText.Current | src/hooks/useAnimations.ts:57 | the hook returns the word at the index, or `undefined` when the index is out of range or NaN |
| RotatingText.TicksFromStart | src/hooks/useAnimations.ts:52-54 | after `k` ticks from 0 the index is `k mod len` |
| RotatingText.AlwaysAWord | src/hooks/useAnimations.ts:52-57 | with a non-empty list the hook returns word `k mod len` after `k` ticks |
| RotatingText.EmptyWordsNaN | src/hooks/useAnimations.ts:54-57 | with an empty list the index is NaN after a tick and no word is returned |
| ScrollProgress.Progress | src/components/ScrollProgress.tsx:15-17 | progress is 0 when the page does not scroll; otherwise `progress * docHeight = scrollY * 100`; it lies in [0, 100] while `scrollY` lies in [0, docHeight] |
| ScrollProgress.Endpoints | src/components/ScrollProgress.tsx:17 | top of a scrollable page gives 0, bottom gives exactly 100 |
| ScrollProgress.ShortPageIsZero | src/components/ScrollProgress.tsx:16-17 | a page no taller than the viewport gives 0 |
| ScrollProgress.Monotone | src/components/ScrollProgress.tsx:17 | scrolling further down never decreases the progress |
| ScrollProgress.NotClamped | src/components/ScrollProgress.tsx:17 | overscroll past either end leaves [0, 100] |
| ScrollProgress.HalfWay | src/components/ScrollProgress.tsx:15-17 | a 2000 px page in an 800 px viewport scrolled to 600 px gives 50 |
| ScrollProgress.MountedIdle | src/components/ScrollProgress.tsx:8-11 | progress starts at 0 with no frame pending and `ticking` false |
| ScrollProgress.OnScroll | src/components/ScrollProgress.tsx:12-22 | a scroll while `ticking` schedules nothing; otherwise it requests one frame and sets `ticking` |
| ScrollProgress.OnFrame | src/components/ScrollProgress.tsx:14-19 | the pending frame runs once, sets the progress from the metrics it reads and resets `ticking` |
| ScrollProgress.StepThrottled | src/components/ScrollProgress.tsx:11-21 | every event keeps "one frame pending exactly when `ticking`" |
| ScrollProgress.RunThrottled | src/components/ScrollProgress.tsx:8-22 | from mount, at most one frame is ever pending, whatever the interleaving |
| ScrollProgress.NoAccumulation | src/components/ScrollProgress.tsx:14-18 | a frame's result depends only on the metrics it reads, not on earlier state |
| ScrollProgress.RunProgressFromFrames | src/components/ScrollProgress.tsx:8-22 | the shown progress is the initial one or the one computed by some frame |
| ScrollProgress.LastFrameShown | src/components/ScrollProgress.tsx:12-20 | after any history, a scroll followed by a frame shows the progress computed from that frame's metrics |
| Cursor.Lerp | src/components/CustomCursor.tsx:18 | factor 0 keeps the start, factor 1 reaches the target, and the remaining distance is `(1 - n)` times the old one |
| Cursor.LerpBetween | src/components/CustomCursor.tsx:18 | for `n` in [0, 1] the result lies between the two ends and `abs(b - lerp) = (1 - n) abs(b - a)` |
| Cursor.LerpConverges | src/components/CustomCursor.tsx:18 | for `n` in (0, 1] a non-zero distance strictly shrinks |
| Cursor.Mount | src/components/CustomCursor.tsx:10-15 | all three positions start at (-100, -100) with all flags false; the component is active only with a fine pointer |
| Cursor.Animate | src/components/CustomCursor.tsx:20-24 | a frame keeps the mouse sample and the flags, and shrinks the dot's gap to the mouse to 0.65 and the ring's to 0.88 of itself on each axis |
| Cursor.Step | src/components/CustomCursor.tsx:37-57 | without a fine pointer nothing changes; a move sets the mouse sample; enter and leave clear and set `hidden`, down and up set and clear `clicking`, hover in and out set and clear `hovering`, each keeping everything else |
| Cursor.StepFrames | src/components/CustomCursor.tsx:20-46 | a move event replaces only the mouse sample; a frame keeps the mouse sample and the flags; no event but a frame moves the dot or the ring |
| Cursor.CoarsePointerInert | src/components/CustomCursor.tsx:37-38 | without a fine pointer no event has any effect |
| Cursor.LerpIterError | src/components/CustomCursor.tsx:18 | after `k` steps toward a fixed target the error is `(1 - n)^k` times the initial error |
| Cursor.FramesAreFrameEvents | src/components/CustomCursor.tsx:20-32 | on an active cursor, `k` frame events are exactly `k` runs of the frame callback |
| Cursor.FramesIterate | src/components/CustomCursor.tsx:20-24 | each frame is one smoothing step of the dot (0.35) and of the ring (0.12) on each axis toward the same mouse sample |
| Cursor.DotDecay | src/components/CustomCursor.tsx:20-21 | with a still mouse, after `k` frames the dot error is `0.65^k` of the initial error on each axis |
| Cursor.RingDecay | src/components/CustomCursor.tsx:22-23 | with a still mouse, after `k` frames the ring error is `0.88^k` of the initial error on each axis |
| Cursor.Render | src/components/CustomCursor.tsx:95 | styles are rendered exactly when the pointer is fine |
| Cursor.DotOpacity | src/components/CustomCursor.tsx:104 | the dot's opacity is in [0, 1], 0 exactly when hidden, below 1 exactly when hidden or pressed |
| Cursor.DotSize | src/components/CustomCursor.tsx:105-106 | the dot has a positive size and is smaller exactly while hovering |
| Cursor.RingOpacity | src/components/CustomCursor.tsx:114 | the ring is invisible exactly when hidden and fully opaque otherwise |
| Cursor.RingSize | src/components/CustomCursor.tsx:116-117 | the ring is smaller exactly while pressed, and always wider than the dot |
| Cursor.RingScale | src/components/CustomCursor.tsx:30 | the ring's scale is at least 1 and above 1 exactly while hovering |
| Cursor.RingBorder | src/components/CustomCursor.tsx:115 | the border is an `rgba(...)` colour, the orange accent exactly while hovering |
| Cursor.StyleTable | src/components/CustomCursor.tsx:104-117 | dot opacity 0 / 0.6 / 1 by hidden and clicking; ring opacity 0 when hidden, else 1; dot 6 or 8 px by hover; ring 28 or 36 px by click |
| Cursor.HoverScale | src/components/CustomCursor.tsx:30 | the rendered ring scales by 1.8 on hover, else 1 |
| Typewriter.Tick | src/App.tsx:287-294 | a running tick within the text advances the counter; past it, the interval is cleared and the text kept |
| Typewriter.TickGrows | src/App.tsx:288-292 | each tick keeps the text a prefix of `fullText` and never shortens it |
| Typewriter.TickShowsPrefix | src/App.tsx:286-291 | tick `k` shows the first `k - 1` characters while `k - 1 <= len` |
| Typewriter.TicksConsistent | src/App.tsx:251 | every state reachable from mount satisfies the prefix invariant |
| Typewriter.Finishes | src/App.tsx:288-292 | after `len + 1` ticks the whole text is shown; the next tick clears the interval and nothing changes afterwards |
| Typewriter.HeadlineTyped | src/App.tsx:258-259 | the 35-character headline is complete after 36 ticks and the 37th clears the interval |
| ProjectFilter.Select | src/App.tsx:445 | the selection is no longer than the list and holds only projects of the list |
| ProjectFilter.Filtered | src/App.tsx:443-445 | `'all'` returns the list unchanged; any other filter returns only projects of that category |
| ProjectFilter.SelectSound | src/App.tsx:445 | every selected project has the requested category |
| ProjectFilter.SelectContents | src/App.tsx:445 | each project of the category is kept as often as it occurs; no other project is kept |
| ProjectFilter.SelectOrdered | src/App.tsx:445 | the selection is a subsequence of the original list |
| ProjectFilter.FilterIdempotent | src/App.tsx:443-445 | filtering twice with the same value equals filtering once |
| ProjectFilter.SelectOfSelected | src/App.tsx:445 | a list already of one category is unchanged by selecting it |
| ProjectFilter.UnknownCategoryEmpty | src/App.tsx:443-445 | a category no project has yields the empty list |
| ProjectFilter.CatalogueButtons | src/App.tsx:904-908 | on the page's six projects (src/App.tsx:326-441) the first of the four filter buttons, `all`, shows the whole list and each of `dev`, `design`, `video` shows 2 |
| SectionVisibility.Update | src/App.tsx:304-307 | an entry sets only its own id to its flag and keeps every other key |
| SectionVisibility.Callback | src/App.tsx:303-308 | after a batch the map has exactly the previous keys plus the ids of the batch's entries |
| SectionVisibility.CallbackLastWins | src/App.tsx:303-308 | after a batch each section holds its last entry's flag; sections without an entry keep their value |
| SectionVisibility.CanHideAgain | src/App.tsx:304-307 | a visible section becomes invisible again when it leaves |
| SectionVisibility.NothingShownInitially | src/App.tsx:252 | before any callback no section is shown |
| Aurora.Setup | src/App.tsx:79-83 | the loop runs only with a canvas and a 2D context; time starts at 0 |
| Aurora.Animate | src/App.tsx:91-120 | each call strictly advances the accumulator of a running loop; the loop continues exactly when the gradient's stop offsets are valid, so a single stop ends it; nothing happens to a stopped loop |
| Aurora.Mount | src/App.tsx:79-124 | with a canvas and context the synchronous first paint leaves the accumulator at 0.01, and the loop continues unless there is a single stop; otherwise nothing runs |
| Aurora.FixedStep | src/App.tsx:92 | after `n` calls of `animate` the accumulator is exactly `n * 0.01` unless there is a single stop |
| Aurora.SingleStopHalts | src/App.tsx:91-120 | with a single stop the first paint throws before requesting a frame: time advances once and the loop ends |
| Aurora.StrictlyIncreasing | src/App.tsx:92 | the accumulator strictly increases from call to call |
| Aurora.NoSurfaceNoTime | src/App.tsx:79-83 | without a canvas or context nothing is scheduled and time stays at 0 |
| Aurora.Step | src/App.tsx:120-134 | a frame calls `animate`; a re-render calls it again at once when the stop array is new, and does nothing otherwise |
| Aurora.FreshStopsTime | src/App.tsx:120-134 | with a new stop array on every render, each frame and each re-render advances the accumulator by 0.01 |
| Aurora.RerenderAdvancesTime | src/App.tsx:124-134 | one re-render with no frame after mount leaves the accumulator at 0.02, not one step per frame |
| Aurora.StableStopsTime | src/App.tsx:120-134 | with a stop array that keeps its identity, the accumulator advances by 0.01 per animation frame only |
| Aurora.StopOffsets | src/App.tsx:98-100 | one stop fails (offset 0/0); otherwise there is one offset per stop |
| Aurora.OffsetOrder | src/App.tsx:99 | offsets `i/(len-1)` lie in [0, 1], strictly increase with `i`, and run from 0 to 1 |
| Aurora.OffsetsSpread | src/App.tsx:98-100 | with at least two stops the offsets start at 0, end at 1 and strictly increase |
| Aurora.DefaultStops | src/App.tsx:73 | three stops sit at 0, 0.5 and 1 |
| ProfileCard.Percent | src/App.tsx:161-162 | the card's near edge is 0 %, its far edge 100 %, and a pointer before the edge is negative |
| ProfileCard.OnMove | src/App.tsx:158-164 | without a card nothing changes; otherwise the stored percentages map back exactly to the pointer's client coordinates |
| ProfileCard.Tilt | src/App.tsx:184 | a tenth of a degree per percent off centre: zero exactly at 50 %, positive exactly above 50 % |
| ProfileCard.PercentRoundTrip | src/App.tsx:161-162 | client coordinate to percent and back is the identity |
| ProfileCard.ClientRoundTrip | src/App.tsx:161-162 | percent to client coordinate and back is the identity |
| ProfileCard.CentreIsFlat | src/App.tsx:161-162 | the card's centre maps to (50, 50), which gives zero rotation about both axes |
| ProfileCard.InsideBounded | src/App.tsx:161-184 | a pointer inside the card maps into [0, 100] and tilts at most 5 degrees about each axis |
| ProfileCard.InitialTilt | src/App.tsx:156-184 | before the first move the card is tilted by -5 degrees about both axes |

## Left out

- Rendering: JSX, class names, CSS transitions and keyframes, the cursor's `transform` strings, canvas drawing calls, the Aurora wave path (`Math.sin`) and `devicePixelRatio` resizing.
- The browser machinery: IntersectionObserver, requestAnimationFrame, event listener registration and removal, and React's effect scheduling and cleanup order. Each appears only as an explicit input event or a `pending` flag.
- The cursor's MutationObserver re-binding (src/components/CustomCursor.tsx:80-92). It attaches fresh listeners on every DOM mutation, does so even without a fine pointer, and can bind an element twice. Hover events in the model are those of the listeners bound at setup.
- The re-run of the cursor's setup effect whenever `hovering` changes. It tears down and re-registers the listeners and the frame loop, but the position refs survive, so the cursor state is unchanged.
- Re-running `useInView` after a threshold change (a new observer on an already revealed element) and `useRotatingText` after an interval change. The states are kept as they are; `Tick` shows that one tick brings any index back into range.
- `Math.random` particles and the page-level mouse glow (src/App.tsx:264-282), the preloader, and the static project, skill and experience data files.
- Aurora.Animate: a paint that throws only ends the loop here. The error then escapes the effect, and what React does with it (unmounting the tree) is not modelled. Every colour is assumed to be a 6-digit hex colour, as at every call site (src/App.tsx:73, 177, 471), so that `color + '40'` parses; an unparsable colour would also make `addColorStop` throw and end the loop, and Aurora.Mount, Aurora.FixedStep, Aurora.FreshStopsTime and Aurora.StableStopsTime share this assumption.
- CountUp.Mount: models one mount with a fixed `startOnView`. The gate effect re-runs when `startOnView` changes: its cleanup disconnects the observer, and `started` keeps the value `useState` read at mount, so switching from `true` to `false` before the element is seen leaves the counter never started. That re-run is not modelled.
- The typewriter's 100 ms interval period: the model counts interval ticks, not milliseconds.
- CountUp.SamplesMonotone: counts never decrease within one frame loop with a fixed configuration. A change of `end` or `duration` restarts the loop from 0 (`CountUp.ReconfigureRestarts`), so across such a change the shown count can fall.
- CountUp.Frame: `end` is an integer. The hook accepts any number; with a fractional `end` the final count would be `floor(end)` rather than `end`.
- CountUp.Progress: requires a positive `duration`. With `duration = 0` JavaScript computes NaN, and that path is not modelled.
- CountUp.Frame: uses real numbers. It does not model the floating-point rounding of `Math.pow` and `Math.floor`.
- RotatingText.Tick: the index is a natural number because it starts at 0 and only ever grows by one before wrapping. A negative index, where JavaScript's truncating `%` would differ, cannot arise.
- ProfileCard.OnMove: requires a card rectangle with positive width and height. The card is fixed at 320 x 500 px, and a zero-sized rectangle, which would divide by zero, is not modelled.
- The intersection callbacks read only the first entry (`([entry])`). An empty batch, which would throw, is not modelled.
- Floating-point behaviour in general. For example, 100 steps of 0.01 do not sum exactly to 1 in IEEE-754; the model states the exact-arithmetic intent.

## Findings

| source | as written | input that shows it | evidently intended | confidence | as-written member | corrected member |
|---|---|---|---|---|---|---|
| src/App.tsx:124-134 (call sites 177, 471) | the effect depends on `colorStops`, and both call sites pass a new array literal on every render, so every parent re-render cancels the frame and runs `animate` again at once | mount, then one re-render of the parent (such as a mouse move on the page) before any frame: the accumulator is 0.02 | the wave advances one fixed step per animation frame | medium, not executed | Aurora.RerenderAdvancesTime | Aurora.StableStopsTime |

=== FILE: aurora.dfy ===
/**
 * The `Aurora` canvas background: each call of `animate` advances a time
 * accumulator by a fixed step and paints a gradient whose colour stops sit at
 * evenly spaced offsets `i / (stops - 1)`. `animate` runs once when the effect
 * runs and then once per animation frame; the effect also runs again whenever
 * the parent renders a new `colorStops` array.
 */
module Aurora {
  import opened Wrappers
  import opened RealMath

  /** Amount the time accumulator advances per call of `animate`,
    * independent of the wall clock. */
  const TimeStep: real := 0.01

  /** `time` is the accumulator ref; `running` says a next frame is requested
    * (the effect found both the canvas and its 2D context, and no paint has
    * thrown). */
  datatype Field = Field(time: real, running: bool)

  /** The gradient rejects a stop whose offset is not a finite number. */
  datatype GradientError = NonFiniteOffset

  /** State before the first paint: the loop runs only with a canvas and a
    * 2D context. */
  function Setup(hasCanvas: bool, hasContext: bool): (r: Field)
    ensures r.time == 0.0
    ensures r.running <==> hasCanvas && hasContext
  {
    Field(0.0, hasCanvas && hasContext)
  }

  /** One call of `animate` with `stops` colour stops. The accumulator
    * advances first; building the gradient then throws for a single stop,
    * before the next frame is requested, and that ends the loop. */
  function Animate(f: Field, stops: nat): (r: Field)
    ensures f.running ==> r.time > f.time
    ensures r.running <==> f.running && StopOffsets(stops).Success?
    ensures !f.running ==> r == f
  {
    if f.running then Field(f.time + TimeStep, StopOffsets(stops).Success?) else f
  }

  /** The effect: set up, then paint once synchronously. */
  function Mount(hasCanvas: bool, hasContext: bool, stops: nat): (r: Field)
    ensures hasCanvas && hasContext ==> r.time == TimeStep
    ensures !(hasCanvas && hasContext) ==> r == Field(0.0, false)
    ensures r.running <==> hasCanvas && hasContext && stops != 1
  {
    Animate(Setup(hasCanvas, hasContext), stops)
  }

  /** `n` consecutive calls of `animate`. */
  function Calls(f: Field, n: nat, stops: nat): Field
    decreases n
  {
    if n == 0 then f else Animate(Calls(f, n - 1, stops), stops)
  }

  /** After `n` calls of `animate` the accumulator is exactly `n * 0.01`,
    * whatever the real time between them, as long as the gradient can be
    * built. */
  lemma {:induction false} FixedStep(n: nat, stops: nat)
    ensures stops != 1 ==> Calls(Setup(true, true), n, stops) == Field(n as real * TimeStep, true)
    decreases n
  {
    if n > 0 {
      FixedStep(n - 1, stops);
    }
  }

  /** With a single colour stop the first paint throws: time advances once
    * and no further call happens. */
  lemma {:induction false} SingleStopHalts(n: nat)
    requires n > 0
    ensures Calls(Setup(true, true), n, 1) == Field(TimeStep, false)
    decreases n
  {
    if n > 1 {
      SingleStopHalts(n - 1);
    }
  }

  /** The accumulator strictly increases from call to call. */
  lemma StrictlyIncreasing(m: nat, n: nat, stops: nat)
    requires m < n && stops != 1
    ensures Calls(Setup(true, true), m, stops).time < Calls(Setup(true, true), n, stops).time
  {
    FixedStep(m, stops);
    FixedStep(n, stops);
  }

  /** Without a canvas or a context nothing is scheduled and time stands still. */
  lemma {:induction false} NoSurfaceNoTime(hasCanvas: bool, hasContext: bool, n: nat, stops: nat)
    requires !(hasCanvas && hasContext)
    ensures Calls(Setup(hasCanvas, hasContext), n, stops) == Field(0.0, false)
    decreases n
  {
    if n > 0 {
      NoSurfaceNoTime(hasCanvas, hasContext, n - 1, stops);
    }
  }

  /** What happens to a mounted background: an animation frame fires, or
    * the parent renders again. */
  datatype Event = Frame | Rerender

  /** A frame runs the requested `animate`. A re-render re-runs the effect
    * when `freshStops` says the parent passed a new `colorStops` array (the
    * effect depends on its identity): the cleanup cancels the requested
    * frame and the effect calls `animate` at once. With an unchanged array
    * a re-render does nothing. */
  function Step(f: Field, e: Event, stops: nat, freshStops: bool): (r: Field)
    ensures e.Rerender? && !freshStops ==> r == f
    ensures e.Frame? || freshStops ==> r == Animate(f, stops)
  {
    if e.Rerender? && !freshStops then f else Animate(f, stops)
  }

  function Run(f: Field, es: seq<Event>, stops: nat, freshStops: bool): Field
    decreases |es|
  {
    if |es| == 0 then f else Run(Step(f, es[0], stops, freshStops), es[1..], stops, freshStops)
  }

  /** The number of animation frames in an event sequence. */
  function FrameCount(es: seq<Event>): nat
    decreases |es|
  {
    if |es| == 0 then 0 else (if es[0].Frame? then 1 else 0) + FrameCount(es[1..])
  }

  /** As the page renders it, with a new stop array on every render, every
    * frame and every re-render advances the accumulator by one step. */
  lemma {:induction false} FreshStopsTime(t: real, es: seq<Event>, stops: nat)
    requires stops != 1
    ensures Run(Field(t, true), es, stops, true) == Field(t + |es| as real * TimeStep, true)
    decreases |es|
  {
    if |es| > 0 {
      FreshStopsTime(t + TimeStep, es[1..], stops);
    }
  }

  /** One re-render of the parent, with no animation frame in between,
    * already advances the background by a step: the accumulator is no longer
    * one step per frame after the first paint. */
  lemma RerenderAdvancesTime()
    ensures FrameCount([Rerender]) == 0
    ensures Run(Mount(true, true, 3), [Rerender], 3, true).time == 2.0 * TimeStep
    ensures Run(Mount(true, true, 3), [Rerender], 3, true).time != (FrameCount([Rerender]) + 1) as real * TimeStep
  {
    assert Run(Mount(true, true, 3), [Rerender], 3, true) == Run(Field(2.0 * TimeStep, true), [], 3, true);
  }

  /** With a stop array that keeps its identity across renders, only
    * animation frames advance the accumulator: one step per frame. */
  lemma {:induction false} StableStopsTime(t: real, es: seq<Event>, stops: nat)
    requires stops != 1
    ensures Run(Field(t, true), es, stops, false) == Field(t + FrameCount(es) as real * TimeStep, true)
    decreases |es|
  {
    if |es| > 0 {
      if es[0].Frame? {
        StableStopsTime(t + TimeStep, es[1..], stops);
      } else {
        StableStopsTime(t, es[1..], stops);
      }
    }
  }

  /** Offset of stop `i` of `stops`. */
  function Offset(i: nat, stops: nat): real
    requires stops >= 2
  {
    i as real / (stops - 1) as real
  }

  /** Offsets of the colour stops. A single stop has offset `0 / 0`, which
    * the gradient rejects; an empty list adds no stop. */
  function StopOffsets(stops: nat): (r: Result<seq<real>, GradientError>)
    ensures r.Failure? <==> stops == 1
    ensures r.Success? ==> |r.value| == stops
  {
    if stops == 1 then Failure(NonFiniteOffset)
    else if stops == 0 then Success([])
    else Success(seq(stops, i requires 0 <= i < stops => Offset(i, stops)))
  }

  lemma OffsetOrder(i: nat, j: nat, stops: nat)
    requires stops >= 2 && i <= j < stops
    ensures 0.0 <= Offset(i, stops) <= Offset(j, stops) <= 1.0
    ensures i < j ==> Offset(i, stops) < Offset(j, stops)
    ensures Offset(0, stops) == 0.0 && Offset(stops - 1, stops) == 1.0
  {
    var d := (stops - 1) as real;
    DivStrict(i as real, j as real, d);
    DivStrict(j as real, d, d);
    assert Offset(stops - 1, stops) == d / d;
    DivSelf(d);
  }

  /** With two or more stops the offsets start at 0, end at 1, stay within
    * [0, 1] and strictly increase. */
  lemma OffsetsSpread(stops: nat)
    requires stops >= 2
    ensures StopOffsets(stops).value[0] == 0.0
    ensures StopOffsets(stops).value[stops - 1] == 1.0
    ensures forall i :: 0 <= i < stops ==> 0.0 <= StopOffsets(stops).value[i] <= 1.0
    ensures forall i, j :: 0 <= i < j < stops ==> StopOffsets(stops).value[i] < StopOffsets(stops).value[j]
  {
    var offs := StopOffsets(stops).value;
    assert forall i :: 0 <= i < stops ==> offs[i] == Offset(i, stops);
    OffsetOrder(0, stops - 1, stops);
    forall i, j | 0 <= i < j < stops
      ensures offs[i] < offs[j]
    {
      OffsetOrder(i, j, stops);
    }
    forall i | 0 <= i < stops
      ensures 0.0 <= offs[i] <= 1.0
    {
      OffsetOrder(i, i, stops);
    }
  }

  /** The page's three default stops sit at the start, middle and end. */
  lemma DefaultStops()
    ensures StopOffsets(3) == Success([0.0, 0.5, 1.0])
  {
    var r := StopOffsets(3).value;
    assert r[0] == 0.0 && r[1] == 0.5 && r[2] == 1.0;
    assert r == [0.0, 0.5, 1.0];
  }
}

=== FILE: count_up.dfy ===
/**
 * The `useCountUp` hook: a counter that waits for a one-shot visibility gate
 * and then, frame by frame, samples `floor(eased(p) * end)` with
 * `p = min((ts - startTime) / duration, 1)`, stopping once `p` reaches 1.
 *
 * The exponential ease `1 - 2^(-10p)` is not expressible here; it is passed in
 * as a function that `ValidEase` constrains the way that curve behaves on
 * [0, 1]. The curve stops short of 1 at `p = 1` (it reaches `1 - 2^-10`),
 * which is why the hook special-cases completion; `Eased` models that branch.
 */
module CountUp {
  import opened Wrappers
  import opened RealMath

  /** Properties of the exponential ease-out that the counter relies on: it
    * starts at 0, stays within [0, 1] and never decreases on [0, 1]. */
  ghost predicate ValidEase(ease: real -> real) {
    && ease(0.0) == 0.0
    && (forall p :: 0.0 <= p <= 1.0 ==> 0.0 <= ease(p) <= 1.0)
    && (forall p, q :: 0.0 <= p <= q <= 1.0 ==> ease(p) <= ease(q))
  }

  /** The hook's arguments: target `end`, `duration` in ms, and `startOnView`. */
  datatype Config = Config(end: int, duration: real, startOnView: bool)

  /**
   * `started` gates the animation, `observing` says the gate's
   * IntersectionObserver still watches the element, `startTime` is the
   * closure variable of the running loop (JavaScript's `undefined` is `None`),
   * and `pending` says an animation frame is requested.
   */
  datatype Counter = Counter(count: int, started: bool, observing: bool,
                             startTime: Option<real>, pending: bool)

  /** State after both mount effects. Without `startOnView` no observer is
    * created and the first frame is requested at once; otherwise the gate
    * observes the element when it is attached. */
  function Mount(cfg: Config, hasElement: bool): (r: Counter)
    ensures r.count == 0
    ensures r.started <==> !cfg.startOnView
    ensures r.observing <==> cfg.startOnView && hasElement
    ensures r.pending <==> r.started
    ensures r.startTime.None?
  {
    Counter(0, !cfg.startOnView, cfg.startOnView && hasElement, None, !cfg.startOnView)
  }

  /** An intersection callback of the start gate. The first intersecting entry
    * starts the animation and unobserves the element; a counter that has
    * already started never restarts. */
  function Visible(s: Counter, isIntersecting: bool): (r: Counter)
    ensures r.count == s.count
    ensures s.started ==> r.started && r.pending == s.pending && r.startTime == s.startTime
    ensures !s.observing || !isIntersecting ==> r == s
    ensures s.observing && isIntersecting ==> r.started && !r.observing
    ensures s.observing && isIntersecting && !s.started ==> r.pending && r.startTime.None?
  {
    if !(s.observing && isIntersecting) then s
    else if s.started then s.(observing := false)
    else s.(started := true, observing := false, startTime := None, pending := true)
  }

  /** Normalised elapsed time of a frame. */
  function Progress(ts: real, start: real, duration: real): (p: real)
    requires duration > 0.0
    ensures p <= 1.0
    ensures ts >= start ==> 0.0 <= p
    ensures p == 1.0 <==> ts - start >= duration
  {
    Min((ts - start) / duration, 1.0)
  }

  /** The ease with its completion branch: exactly 1 when `p` is 1, whatever
    * the curve gives there. */
  function Eased(p: real, ease: real -> real): (r: real)
    ensures p == 1.0 ==> r == 1.0
    ensures ValidEase(ease) && p == 0.0 ==> r == 0.0
    ensures ValidEase(ease) && 0.0 <= p <= 1.0 ==> 0.0 <= r <= 1.0
  {
    if p == 1.0 then 1.0 else ease(p)
  }

  /** The count shown for progress `p`: 0 at the start and exactly `end` on
    * completion. */
  function Sample(p: real, end: int, ease: real -> real): (r: int)
    ensures p == 1.0 ==> r == end
    ensures ValidEase(ease) && p == 0.0 ==> r == 0
  {
    (Eased(p, ease) * end as real).Floor
  }

  /** The start time a frame at `ts` uses: the closure's value unless it is
    * unset or 0 (both falsy in JavaScript), in which case `ts` itself. */
  function StartFor(s: Counter, ts: real): (r: real)
    ensures r == ts || s.startTime == Some(r)
    ensures s.startTime.Some? && s.startTime.value != 0.0 ==> r == s.startTime.value
    ensures r == 0.0 ==> ts == 0.0
  {
    if s.startTime.None? || s.startTime.value == 0.0 then ts else s.startTime.value
  }

  /** One animation frame with timestamp `ts`; only a requested frame runs. */
  function Frame(s: Counter, ts: real, cfg: Config, ease: real -> real): (r: Counter)
    requires cfg.duration > 0.0
    ensures !s.pending ==> r == s
    ensures s.pending ==> r.startTime == Some(StartFor(s, ts))
    ensures s.pending && s.startTime.Some? && s.startTime.value != 0.0 ==> r.startTime == s.startTime
    ensures s.pending ==> (!r.pending <==> ts - r.startTime.value >= cfg.duration)
    ensures s.pending && !r.pending ==> r.count == cfg.end
    ensures r.started == s.started && r.observing == s.observing
  {
    if !s.pending then s
    else
      var start := StartFor(s, ts);
      var p := Progress(ts, start, cfg.duration);
      s.(startTime := Some(start), count := Sample(p, cfg.end, ease), pending := p < 1.0)
  }

  /** A frame whose timestamp is not before its start time shows a count
    * between 0 and `end`. */
  lemma FrameBounds(s: Counter, ts: real, cfg: Config, ease: real -> real)
    requires cfg.duration > 0.0 && cfg.end >= 0 && ValidEase(ease)
    requires s.pending && ts >= StartFor(s, ts)
    ensures 0 <= Frame(s, ts, cfg, ease).count <= cfg.end
  {
    SampleBounds(Progress(ts, StartFor(s, ts), cfg.duration), cfg.end, ease);
  }

  /** A change of `end` or `duration` re-runs the frame effect: its cleanup
    * cancels the requested frame, and a started counter begins a fresh loop
    * whose closure has no start time, while the shown count keeps its value. */
  function Reconfigure(s: Counter): (r: Counter)
    ensures r.count == s.count && r.started == s.started && r.observing == s.observing
    ensures r.pending <==> s.started
    ensures s.started ==> r.startTime.None?
  {
    if s.started then s.(startTime := None, pending := true) else s.(pending := false)
  }

  /** The first frame after a reconfiguration starts over at progress 0, so
    * a counter that already showed a positive count falls back to 0. */
  lemma ReconfigureRestarts(s: Counter, ts: real, cfg: Config, ease: real -> real)
    requires cfg.duration > 0.0 && ValidEase(ease) && s.started
    ensures Frame(Reconfigure(s), ts, cfg, ease).count == 0
    ensures s.count > 0 ==> Frame(Reconfigure(s), ts, cfg, ease).count < s.count
  {
    assert Progress(ts, ts, cfg.duration) == 0.0;
  }

  /** The counts published by the frames that run, one per frame, in order;
    * frames stop once no frame is requested. */
  function Samples(s: Counter, tss: seq<real>, cfg: Config, ease: real -> real): (r: seq<int>)
    requires cfg.duration > 0.0
    ensures |r| <= |tss|
    ensures !s.pending ==> r == []
    ensures s.pending && |tss| > 0 ==> |r| > 0 && r[0] == Frame(s, tss[0], cfg, ease).count
    decreases |tss|
  {
    if |tss| == 0 || !s.pending then []
    else
      var t := Frame(s, tss[0], cfg, ease);
      [t.count] + Samples(t, tss[1..], cfg, ease)
  }

  /** The state of the loop after the frame at `last` has run. */
  ghost predicate Animating(s: Counter, last: real, cfg: Config, ease: real -> real)
    requires cfg.duration > 0.0
  {
    && s.startTime.Some?
    && s.startTime.value <= last
    && (s.startTime.value == 0.0 ==> last == 0.0)
    && s.count == Sample(Progress(last, s.startTime.value, cfg.duration), cfg.end, ease)
  }

  ghost predicate NonDecreasing(tss: seq<real>) {
    forall i, j :: 0 <= i < j < |tss| ==> tss[i] <= tss[j]
  }

  /** A sample taken at progress in [0, 1] lies between 0 and `end`. */
  lemma SampleBounds(p: real, end: int, ease: real -> real)
    requires ValidEase(ease) && end >= 0 && 0.0 <= p <= 1.0
    ensures 0 <= Sample(p, end, ease) <= end
  {
    var e := Eased(p, ease);
    var k := end as real;
    assert 0.0 <= e <= 1.0;
    ScaleUnit(e, k);
    assert 0.0 <= e * k <= k;
    FloorMonotone(0.0, e * k);
    FloorMonotone(e * k, k);
  }

  /** Eased progress is monotone and bounded on [0, 1]. */
  lemma EasedMonotone(p: real, q: real, ease: real -> real)
    requires ValidEase(ease)
    requires 0.0 <= p <= q <= 1.0
    ensures 0.0 <= Eased(p, ease) <= Eased(q, ease) <= 1.0
  {
  }

  /** Later progress never shows a smaller count. */
  lemma SampleMonotone(p: real, q: real, end: int, ease: real -> real)
    requires ValidEase(ease) && end >= 0 && 0.0 <= p <= q <= 1.0
    ensures Sample(p, end, ease) <= Sample(q, end, ease) <= end
  {
    EasedMonotone(p, q, ease);
    ScaleMonotone(Eased(p, ease), Eased(q, ease), end as real);
    FloorMonotone(Eased(p, ease) * end as real, Eased(q, ease) * end as real);
    SampleBounds(q, end, ease);
  }

  /** One frame of a running loop never lowers the count nor exceeds `end`. */
  lemma FrameStep(s: Counter, last: real, ts: real, cfg: Config, ease: real -> real)
    requires cfg.duration > 0.0 && cfg.end >= 0 && ValidEase(ease)
    requires s.pending && Animating(s, last, cfg, ease) && last <= ts
    ensures Animating(Frame(s, ts, cfg, ease), ts, cfg, ease)
    ensures s.count <= Frame(s, ts, cfg, ease).count <= cfg.end
  {
    var st := s.startTime.value;
    var t := Frame(s, ts, cfg, ease);
    if st == 0.0 {
      assert last == 0.0;
      assert Progress(last, st, cfg.duration) == 0.0;
      SampleMonotone(0.0, 0.0, cfg.end, ease);
      assert t.startTime == Some(ts);
      assert t.count == Sample(0.0, cfg.end, ease);
    } else {
      var p := Progress(last, st, cfg.duration);
      var q := Progress(ts, st, cfg.duration);
      DivMonotone(last - st, ts - st, cfg.duration);
      SampleMonotone(p, q, cfg.end, ease);
      assert t.startTime == Some(st);
      assert t.count == Sample(q, cfg.end, ease);
    }
  }

  ghost predicate Sorted(xs: seq<int>) {
    forall i, j :: 0 <= i < j < |xs| ==> xs[i] <= xs[j]
  }

  ghost predicate Within(xs: seq<int>, lo: int, hi: int) {
    forall i :: 0 <= i < |xs| ==> lo <= xs[i] <= hi
  }

  /** Prepending a value no larger than a sorted tail keeps it sorted. */
  lemma ConsSorted(x: int, ys: seq<int>, lo: int, hi: int)
    requires lo <= x <= hi && Within(ys, x, hi) && Sorted(ys)
    ensures Sorted([x] + ys) && Within([x] + ys, lo, hi)
  {
    var xs := [x] + ys;
    assert forall k :: 0 < k < |xs| ==> xs[k] == ys[k - 1];
  }

  /** Every sample of a running loop fed non-decreasing timestamps is at least
    * the current count, at most `end`, and the samples never decrease. */
  lemma {:induction false} SamplesFromRunning(s: Counter, last: real, tss: seq<real>, cfg: Config, ease: real -> real)
    requires cfg.duration > 0.0 && cfg.end >= 0 && ValidEase(ease)
    requires Animating(s, last, cfg, ease)
    requires NonDecreasing(tss) && forall i :: 0 <= i < |tss| ==> last <= tss[i]
    ensures Within(Samples(s, tss, cfg, ease), s.count, cfg.end)
    ensures Sorted(Samples(s, tss, cfg, ease))
    decreases |tss|
  {
    if |tss| > 0 && s.pending {
      var t := Frame(s, tss[0], cfg, ease);
      FrameStep(s, last, tss[0], cfg, ease);
      var rest := tss[1..];
      assert NonDecreasing(rest) && forall i :: 0 <= i < |rest| ==> tss[0] <= rest[i] by {
        assert forall i :: 0 <= i < |rest| ==> rest[i] == tss[i + 1];
      }
      SamplesFromRunning(t, tss[0], rest, cfg, ease);
      ConsSorted(t.count, Samples(t, rest, cfg, ease), s.count, cfg.end);
    }
  }

  /** From the moment the loop is requested, the counts it publishes for
    * non-decreasing timestamps start at 0, never decrease and never exceed
    * `end`. */
  lemma SamplesMonotone(s: Counter, tss: seq<real>, cfg: Config, ease: real -> real)
    requires cfg.duration > 0.0 && cfg.end >= 0 && ValidEase(ease)
    requires s.pending && s.startTime.None?
    requires NonDecreasing(tss)
    ensures |tss| > 0 ==> |Samples(s, tss, cfg, ease)| > 0 && Samples(s, tss, cfg, ease)[0] == 0
    ensures Within(Samples(s, tss, cfg, ease), 0, cfg.end)
    ensures Sorted(Samples(s, tss, cfg, ease))
  {
    if |tss| > 0 {
      var t := Frame(s, tss[0], cfg, ease);
      assert Progress(tss[0], tss[0], cfg.duration) == 0.0;
      SampleMonotone(0.0, 0.0, cfg.end, ease);
      assert t.count == 0;
      var rest := tss[1..];
      assert NonDecreasing(rest) && forall i :: 0 <= i < |rest| ==> tss[0] <= rest[i] by {
        assert forall i :: 0 <= i < |rest| ==> rest[i] == tss[i + 1];
      }
      SamplesFromRunning(t, tss[0], rest, cfg, ease);
      ConsSorted(t.count, Samples(t, rest, cfg, ease), 0, cfg.end);
    }
  }

  /** When the loop stops before the timestamps run out, its last sample is
    * exactly `end`. */
  lemma {:induction false} StopsAtEnd(s: Counter, tss: seq<real>, cfg: Config, ease: real -> real)
    requires cfg.duration > 0.0
    requires s.pending
    requires |Samples(s, tss, cfg, ease)| < |tss|
    ensures var xs := Samples(s, tss, cfg, ease); |xs| > 0 && xs[|xs| - 1] == cfg.end
    decreases |tss|
  {
    var t := Frame(s, tss[0], cfg, ease);
    if t.pending {
      StopsAtEnd(t, tss[1..], cfg, ease);
    }
  }

  /** Frames at `t0 + i * step` for `i` from `lo` to `hi`. */
  function Ticks(t0: real, step: real, lo: nat, hi: nat): seq<real>
    decreases hi + 1 - lo
  {
    if lo > hi then [] else [t0 + lo as real * step] + Ticks(t0, step, lo + 1, hi)
  }

  /** The frame at tick `i` of a loop that started at `t0`. */
  lemma TickFrame(s: Counter, t0: real, step: real, i: nat, n: nat, cfg: Config, ease: real -> real)
    requires cfg.duration > 0.0 && step > 0.0 && t0 != 0.0
    requires s.pending && s.startTime == Some(t0)
    requires 1 <= i <= n
    requires n as real * step >= cfg.duration && (n - 1) as real * step < cfg.duration
    ensures Frame(s, t0 + i as real * step, cfg, ease).startTime == Some(t0)
    ensures Frame(s, t0 + i as real * step, cfg, ease).pending <==> i < n
  {
    var ts := t0 + i as real * step;
    assert StartFor(s, ts) == t0;
    assert ts - t0 == i as real * step;
    if i < n {
      ScaleMonotone(i as real, (n - 1) as real, step);
      assert ts - t0 < cfg.duration;
    } else {
      assert ts - t0 >= cfg.duration;
    }
  }

  /** Frames at ticks `i` to `m` of a loop started at `t0`, where the
    * duration ends at tick `n <= m`: one sample per tick up to `n`, the last
    * equal to `end`, and nothing after tick `n`. */
  lemma {:induction false} UniformTail(s: Counter, t0: real, step: real, i: nat, n: nat, m: nat,
                                       cfg: Config, ease: real -> real)
    requires cfg.duration > 0.0 && step > 0.0 && t0 != 0.0
    requires s.pending && s.startTime == Some(t0)
    requires 1 <= i <= n <= m
    requires n as real * step >= cfg.duration && (n - 1) as real * step < cfg.duration
    ensures var xs := Samples(s, Ticks(t0, step, i, m), cfg, ease);
      |xs| == n - i + 1 && xs[|xs| - 1] == cfg.end
    decreases n - i
  {
    var t := Frame(s, t0 + i as real * step, cfg, ease);
    TickFrame(s, t0, step, i, n, cfg, ease);
    assert Ticks(t0, step, i, m)[1..] == Ticks(t0, step, i + 1, m);
    if i < n {
      UniformTail(t, t0, step, i + 1, n, m, cfg, ease);
    } else {
      assert !t.pending;
      assert Samples(t, Ticks(t0, step, i + 1, m), cfg, ease) == [];
    }
  }

  /** Under a clock ticking every `step` ms, a loop whose duration takes `n`
    * steps publishes exactly `n + 1` samples (one at every tick from 0 to `n`)
    * however many ticks `m >= n` follow, and its last one is exactly `end`. */
  lemma UniformTicksFinish(s: Counter, t0: real, step: real, n: nat, m: nat, cfg: Config, ease: real -> real)
    requires cfg.duration > 0.0 && step > 0.0 && t0 != 0.0
    requires s.pending && s.startTime.None?
    requires n as real * step >= cfg.duration && (n - 1) as real * step < cfg.duration
    requires n <= m
    ensures var xs := Samples(s, Ticks(t0, step, 0, m), cfg, ease);
      |xs| == n + 1 && xs[n] == cfg.end
  {
    var t := Frame(s, t0, cfg, ease);
    assert Progress(t0, t0, cfg.duration) == 0.0;
    assert n >= 1;
    assert Ticks(t0, step, 0, m)[1..] == Ticks(t0, step, 1, m);
    UniformTail(t, t0, step, 1, n, m, cfg, ease);
  }

  /** A counter with target 12 and duration 1000 ms, under a clock ticking
    * every 100 ms, shows exactly 12 on its eleventh frame and publishes
    * nothing on any later tick. */
  lemma TwelveInTenTicks(ease: real -> real, t0: real, m: nat)
    requires t0 != 0.0 && m >= 10
    ensures var cfg := Config(12, 1000.0, false);
      var xs := Samples(Mount(cfg, true), Ticks(t0, 100.0, 0, m), cfg, ease);
      |xs| == 11 && xs[10] == 12
  {
    UniformTicksFinish(Mount(Config(12, 1000.0, false), true), t0, 100.0, 10, m, Config(12, 1000.0, false), ease);
  }
}

=== FILE: cursor.dfy ===
/**
 * The `CustomCursor` component: a dot and a ring that trail the pointer by
 * linear interpolation once per animation frame, styled from three flags,
 * and active only on devices with a fine pointer.
 */
module Cursor {
  import opened Wrappers
  import opened RealMath

  datatype Point = Point(x: real, y: real)

  /** Interpolation factor of the inner dot. */
  const DotFactor: real := 0.35
  /** Interpolation factor of the outer ring. */
  const RingFactor: real := 0.12
  /** Where all three positions start, off the visible page. */
  const Offscreen: Point := Point(-100.0, -100.0)

  /** One smoothing step from `a` toward `b` with factor `n`. */
  function Lerp(a: real, b: real, n: real): (r: real)
    ensures n == 0.0 ==> r == a
    ensures n == 1.0 ==> r == b
    ensures b - r == (1.0 - n) * (b - a)
  {
    a + (b - a) * n
  }

  /** For a factor in [0, 1] the step lands between the two ends (it never
    * overshoots) and the remaining distance is `(1 - n)` times the old one. */
  lemma LerpBetween(a: real, b: real, n: real)
    requires 0.0 <= n <= 1.0
    ensures Min(a, b) <= Lerp(a, b, n) <= Max(a, b)
    ensures Abs(b - Lerp(a, b, n)) == (1.0 - n) * Abs(b - a)
  {
    if a <= b {
      MulNonNegative(b - a, n);
      MulNonNegative(1.0 - n, b - a);
    } else {
      MulNonNegative(a - b, n);
      MulNonNegative(1.0 - n, a - b);
    }
  }

  /** A positive factor strictly shortens a non-zero distance. */
  lemma LerpConverges(a: real, b: real, n: real)
    requires 0.0 < n <= 1.0 && a != b
    ensures Abs(b - Lerp(a, b, n)) < Abs(b - a)
  {
    LerpBetween(a, b, n);
    assert Abs(b - a) - (1.0 - n) * Abs(b - a) == n * Abs(b - a);
    assert n * Abs(b - a) > 0.0;
  }

  function LerpPoint(p: Point, target: Point, n: real): Point {
    Point(Lerp(p.x, target.x, n), Lerp(p.y, target.y, n))
  }

  /**
   * `mouse`, `dot` and `ring` are the three position refs; `hovering`,
   * `clicking` and `hidden` the React flags; `active` records whether the
   * setup effect found a fine pointer and wired listeners and the frame loop.
   */
  datatype Cursor = Cursor(mouse: Point, dot: Point, ring: Point,
                           hovering: bool, clicking: bool, hidden: bool,
                           active: bool)

  /** State after mount: everything off-screen, all flags false. */
  function Mount(finePointer: bool): (r: Cursor)
    ensures r.mouse == r.dot == r.ring == Offscreen
    ensures !r.hovering && !r.clicking && !r.hidden
    ensures r.active <==> finePointer
  {
    Cursor(Offscreen, Offscreen, Offscreen, false, false, false, finePointer)
  }

  /** The browser inputs the component listens to. `Frame` is one run of the
    * animation-frame callback. */
  datatype Event =
    | Move(x: real, y: real)
    | Enter | Leave | Down | Up
    | HoverIn | HoverOut
    | Frame

  /** Frame update: dot and ring each move toward the same mouse sample, on
    * both axes independently, with their own factor; the dot's gap to the
    * mouse shrinks to 0.65 of itself and the ring's to 0.88. */
  function Animate(c: Cursor): (r: Cursor)
    ensures r.mouse == c.mouse && r.active == c.active
    ensures r.hovering == c.hovering && r.clicking == c.clicking && r.hidden == c.hidden
    ensures c.mouse.x - r.dot.x == 0.65 * (c.mouse.x - c.dot.x)
    ensures c.mouse.y - r.dot.y == 0.65 * (c.mouse.y - c.dot.y)
    ensures c.mouse.x - r.ring.x == 0.88 * (c.mouse.x - c.ring.x)
    ensures c.mouse.y - r.ring.y == 0.88 * (c.mouse.y - c.ring.y)
  {
    c.(dot := LerpPoint(c.dot, c.mouse, DotFactor),
       ring := LerpPoint(c.ring, c.mouse, RingFactor))
  }

  /** Without a fine pointer nothing is registered, so no event has an effect. */
  function Step(c: Cursor, e: Event): (r: Cursor)
    ensures !c.active ==> r == c
    ensures r.active == c.active
    ensures c.active && e.Move? ==> r.mouse == Point(e.x, e.y)
    ensures c.active && e.Enter? ==> r == c.(hidden := false)
    ensures c.active && e.Leave? ==> r == c.(hidden := true)
    ensures c.active && e.Down? ==> r == c.(clicking := true)
    ensures c.active && e.Up? ==> r == c.(clicking := false)
    ensures c.active && e.HoverIn? ==> r == c.(hovering := true)
    ensures c.active && e.HoverOut? ==> r == c.(hovering := false)
  {
    if !c.active then c
    else match e
      case Move(x, y) => c.(mouse := Point(x, y))
      case Enter => c.(hidden := false)
      case Leave => c.(hidden := true)
      case Down => c.(clicking := true)
      case Up => c.(clicking := false)
      case HoverIn => c.(hovering := true)
      case HoverOut => c.(hovering := false)
      case Frame => Animate(c)
  }

  function Run(c: Cursor, es: seq<Event>): Cursor
    decreases |es|
  {
    if |es| == 0 then c else Run(Step(c, es[0]), es[1..])
  }

  /** A move event replaces only the mouse sample; a frame moves only the dot
    * and the ring; the flag events touch only their flag. */
  lemma StepFrames(c: Cursor, e: Event)
    requires c.active
    ensures e.Move? ==> Step(c, e) == c.(mouse := Point(e.x, e.y))
    ensures e.Frame? ==> (Step(c, e).mouse == c.mouse
      && Step(c, e).hovering == c.hovering && Step(c, e).clicking == c.clicking
      && Step(c, e).hidden == c.hidden)
    ensures !e.Frame? ==> Step(c, e).dot == c.dot && Step(c, e).ring == c.ring
    ensures Step(c, e).active
  {
  }

  /** On a coarse pointer every event is ignored. */
  lemma {:induction false} CoarsePointerInert(es: seq<Event>)
    ensures Run(Mount(false), es) == Mount(false)
    decreases |es|
  {
    if |es| > 0 {
      CoarsePointerInert(es[1..]);
    }
  }

  function Pow(b: real, k: nat): real
    decreases k
  {
    if k == 0 then 1.0 else b * Pow(b, k - 1)
  }

  /** `k` runs of the frame callback. */
  function Frames(c: Cursor, k: nat): Cursor
    decreases k
  {
    if k == 0 then c else Animate(Frames(c, k - 1))
  }

  /** Appending an event to a run is one more step after it. */
  lemma {:induction false} RunSnoc(c: Cursor, es: seq<Event>, e: Event)
    ensures Run(c, es + [e]) == Step(Run(c, es), e)
    decreases |es|
  {
    if |es| > 0 {
      assert (es + [e])[1..] == es[1..] + [e];
      RunSnoc(Step(c, es[0]), es[1..], e);
    }
  }

  /** On an active cursor, `k` frame events are `k` runs of the frame
    * callback. */
  lemma {:induction false} FramesAreFrameEvents(c: Cursor, k: nat)
    requires c.active
    ensures Run(c, seq(k, i => Frame)) == Frames(c, k)
    decreases k
  {
    if k > 0 {
      FramesAreFrameEvents(c, k - 1);
      assert seq(k, i => Frame) == seq(k - 1, i => Frame) + [Frame];
      RunSnoc(c, seq(k - 1, i => Frame), Frame);
      FramesIterate(c, k - 1);
    }
  }

  /** `k` smoothing steps toward a fixed target. */
  function LerpIter(a: real, b: real, n: real, k: nat): real
    decreases k
  {
    if k == 0 then a else Lerp(LerpIter(a, b, n, k - 1), b, n)
  }

  /** After `k` steps toward a fixed target, the error is `(1 - n)^k` times
    * the initial error. */
  lemma {:induction false} LerpIterError(a: real, b: real, n: real, m: real, k: nat)
    requires m == 1.0 - n
    ensures b - LerpIter(a, b, n, k) == Pow(m, k) * (b - a)
    decreases k
  {
    if k > 0 {
      LerpIterError(a, b, n, m, k - 1);
      var x := LerpIter(a, b, n, k - 1);
      assert b - LerpIter(a, b, n, k) == m * (b - x);
      MulAssoc(m, Pow(m, k - 1), b - a);
    }
  }

  /** With the mouse held still, each frame is one smoothing step of the dot
    * and of the ring, on each axis. */
  lemma {:induction false} FramesIterate(c: Cursor, k: nat)
    requires c.active
    ensures Frames(c, k).mouse == c.mouse && Frames(c, k).active
    ensures Frames(c, k).dot.x == LerpIter(c.dot.x, c.mouse.x, DotFactor, k)
    ensures Frames(c, k).dot.y == LerpIter(c.dot.y, c.mouse.y, DotFactor, k)
    ensures Frames(c, k).ring.x == LerpIter(c.ring.x, c.mouse.x, RingFactor, k)
    ensures Frames(c, k).ring.y == LerpIter(c.ring.y, c.mouse.y, RingFactor, k)
    decreases k
  {
    if k > 0 {
      FramesIterate(c, k - 1);
    }
  }

  /** A coordinate reached by `k` smoothing steps is off by `m^k` times the
    * initial error. */
  lemma AxisDecay(a: real, b: real, x: real, n: real, m: real, k: nat)
    requires m == 1.0 - n && x == LerpIter(a, b, n, k)
    ensures b - x == Pow(m, k) * (b - a)
  {
    LerpIterError(a, b, n, m, k);
  }

  /** With the mouse held still, after `k` frames the dot's error is `0.65^k`
    * of its initial error, on each axis. */
  lemma DotDecay(c: Cursor, k: nat)
    requires c.active
    ensures c.mouse.x - Frames(c, k).dot.x == Pow(0.65, k) * (c.mouse.x - c.dot.x)
    ensures c.mouse.y - Frames(c, k).dot.y == Pow(0.65, k) * (c.mouse.y - c.dot.y)
  {
    FramesIterate(c, k);
    AxisDecay(c.dot.x, c.mouse.x, Frames(c, k).dot.x, DotFactor, 0.65, k);
    AxisDecay(c.dot.y, c.mouse.y, Frames(c, k).dot.y, DotFactor, 0.65, k);
  }

  /** With the mouse held still, after `k` frames the ring's error is `0.88^k`
    * of its initial error, on each axis. */
  lemma RingDecay(c: Cursor, k: nat)
    requires c.active
    ensures c.mouse.x - Frames(c, k).ring.x == Pow(0.88, k) * (c.mouse.x - c.ring.x)
    ensures c.mouse.y - Frames(c, k).ring.y == Pow(0.88, k) * (c.mouse.y - c.ring.y)
  {
    FramesIterate(c, k);
    AxisDecay(c.ring.x, c.mouse.x, Frames(c, k).ring.x, RingFactor, 0.88, k);
    AxisDecay(c.ring.y, c.mouse.y, Frames(c, k).ring.y, RingFactor, 0.88, k);
  }

  /** Inline style of the dot and the ring. Sizes are in px; `scale` is the
    * ring's transform scale. */
  datatype Styles = Styles(dotOpacity: real, dotSize: real,
                           ringOpacity: real, ringSize: real, ringScale: real,
                           ringBorder: string)

  /** The dot is invisible exactly when hidden, dimmed while pressed. */
  function DotOpacity(hidden: bool, clicking: bool): (r: real)
    ensures 0.0 <= r <= 1.0
    ensures r == 0.0 <==> hidden
    ensures r < 1.0 <==> hidden || clicking
  {
    if hidden then 0.0 else if clicking then 0.6 else 1.0
  }

  /** Hovering shrinks the dot. */
  function DotSize(hovering: bool): (r: real)
    ensures r > 0.0
    ensures hovering <==> r < 8.0
  {
    if hovering then 6.0 else 8.0
  }

  /** The ring is fully opaque unless hidden; pressing does not dim it. */
  function RingOpacity(hidden: bool): (r: real)
    ensures r == 0.0 <==> hidden
    ensures !hidden ==> r == 1.0
  {
    if hidden then 0.0 else 1.0
  }

  /** Pressing shrinks the ring, and even then it is wider than the dot. */
  function RingSize(clicking: bool): (r: real)
    ensures clicking <==> r < 36.0
    ensures forall hovering :: r > DotSize(hovering)
  {
    if clicking then 28.0 else 36.0
  }

  /** Hovering only ever enlarges the ring. */
  function RingScale(hovering: bool): (r: real)
    ensures r >= 1.0
    ensures r > 1.0 <==> hovering
  {
    if hovering then 1.8 else 1.0
  }

  /** The orange accent border exactly while hovering, else a faint white. */
  function RingBorder(hovering: bool): (r: string)
    ensures |r| > 8 && r[..5] == "rgba("
    ensures hovering <==> r[5..8] == "249"
  {
    var accent := "rgba(249, 115, 22, 0.6)";
    var faint := "rgba(255, 255, 255, 0.15)";
    assert faint[7] != accent[7];
    if hovering then accent else faint
  }

  /** What the component renders: nothing without a fine pointer. */
  function Render(c: Cursor): (r: Option<Styles>)
    ensures r.Some? <==> c.active
  {
    if !c.active then None
    else Some(Styles(DotOpacity(c.hidden, c.clicking), DotSize(c.hovering),
                     RingOpacity(c.hidden), RingSize(c.clicking), RingScale(c.hovering),
                     RingBorder(c.hovering)))
  }

  /** The style table: hiding blanks both shapes, pressing dims only the dot
    * and shrinks the ring, and hovering shrinks the dot. */
  lemma StyleTable(c: Cursor)
    requires c.active
    ensures var s := Render(c).value;
      && (s.dotOpacity == 0.0 <==> c.hidden)
      && (s.ringOpacity == 0.0 <==> c.hidden)
      && (!c.hidden ==> s.ringOpacity == 1.0)
      && (!c.hidden ==> (s.dotOpacity == 0.6 <==> c.clicking))
      && (!c.hidden && !c.clicking ==> s.dotOpacity == 1.0)
      && (s.dotSize == if c.hovering then 6.0 else 8.0)
      && (s.ringSize == if c.clicking then 28.0 else 36.0)
  {
  }

  /** Hovering scales the ring by 1.8, otherwise it keeps its size. */
  lemma HoverScale(c: Cursor)
    requires c.active
    ensures var s := Render(c).value;
      s.ringScale == if c.hovering then 1.8 else 1.0
  {
  }
}

=== FILE: in_view.dfy ===
/**
 * The `useInView` hook: a one-shot reveal latch driven by intersection
 * callbacks. The observer is created only when the element is mounted; the
 * first intersecting entry sets `inView` and unobserves the element, so no
 * later callback reaches the latch.
 */
module InView {

  /** `observing` is true while the IntersectionObserver still watches the element. */
  datatype Latch = Latch(inView: bool, observing: bool)

  /** State after the mount effect: `inView` is false, and the element is
    * observed only when the ref is attached. */
  function Mount(hasElement: bool): (r: Latch)
    ensures !r.inView
    ensures r.observing <==> hasElement
  {
    Latch(false, hasElement)
  }

  /** One intersection callback carrying the `isIntersecting` flag of its entry.
    * A callback reaches the latch only while the element is observed. */
  function Step(s: Latch, isIntersecting: bool): (r: Latch)
    ensures s.inView ==> r.inView
    ensures !isIntersecting ==> r == s
    ensures !s.observing ==> r == s
    ensures s.observing && isIntersecting ==> r.inView && !r.observing
    ensures r.inView && !s.inView ==> !r.observing
  {
    if s.observing && isIntersecting then Latch(true, false) else s
  }

  /** Cleanup on unmount or threshold change: the observer is disconnected. */
  function Disconnect(s: Latch): (r: Latch)
    ensures r.inView == s.inView && !r.observing
  {
    s.(observing := false)
  }

  /** Feeds a sequence of callbacks, oldest first. */
  function Run(s: Latch, events: seq<bool>): Latch
    decreases |events|
  {
    if |events| == 0 then s else Run(Step(s, events[0]), events[1..])
  }

  /** Number of callbacks that flipped the latch (calls of `setInView(true)`
    * that changed it). */
  function Reveals(s: Latch, events: seq<bool>): nat
    decreases |events|
  {
    if |events| == 0 then 0
    else
      var t := Step(s, events[0]);
      (if !s.inView && t.inView then 1 else 0) + Reveals(t, events[1..])
  }

  /** A latch never returns to false once set. */
  lemma {:induction false} RunKeepsInView(s: Latch, events: seq<bool>)
    requires s.inView
    ensures Run(s, events).inView
    decreases |events|
  {
    if |events| > 0 {
      RunKeepsInView(Step(s, events[0]), events[1..]);
    }
  }

  /** From mount, the element is revealed exactly when it is mounted and some
    * callback reported an intersection. */
  lemma {:induction false} RunRevealsIff(s: Latch, events: seq<bool>)
    requires s.inView || s.observing
    ensures Run(s, events).inView <==> s.inView || exists i :: 0 <= i < |events| && events[i]
    decreases |events|
  {
    if |events| > 0 {
      var t := Step(s, events[0]);
      RunRevealsIff(t, events[1..]);
      if events[0] {
        assert t.inView;
      } else {
        assert t == s;
        assert forall i :: 1 <= i < |events| ==> events[i] == events[1..][i - 1];
        assert forall i :: 0 <= i < |events| - 1 ==> events[1..][i] == events[i + 1];
      }
    }
  }

  /** A latch that has stopped observing ignores every later callback. */
  lemma {:induction false} UnobservedIgnoresEvents(s: Latch, events: seq<bool>)
    requires !s.observing
    ensures Run(s, events) == s
    decreases |events|
  {
    if |events| > 0 {
      UnobservedIgnoresEvents(Step(s, events[0]), events[1..]);
    }
  }

  /** The reveal fires at most once, whatever the callbacks do afterwards. */
  lemma {:induction false} RevealsAtMostOnce(s: Latch, events: seq<bool>)
    requires s.inView ==> !s.observing
    ensures Reveals(s, events) <= 1
    ensures s.inView ==> Reveals(s, events) == 0
    decreases |events|
  {
    if |events| > 0 {
      var t := Step(s, events[0]);
      RevealsAtMostOnce(t, events[1..]);
    }
  }

  /** From mount, the reveal fires exactly once if some callback reports an
    * intersection, and never otherwise. */
  lemma {:induction false} RevealsExactlyOnce(s: Latch, events: seq<bool>)
    requires s.observing && !s.inView
    ensures Reveals(s, events) == 1 <==> exists i :: 0 <= i < |events| && events[i]
    ensures Reveals(s, events) == 0 <==> forall i :: 0 <= i < |events| ==> !events[i]
    decreases |events|
  {
    if |events| > 0 {
      var t := Step(s, events[0]);
      if events[0] {
        RevealsAtMostOnce(t, events[1..]);
      } else {
        RevealsExactlyOnce(t, events[1..]);
        assert forall i :: 1 <= i < |events| ==> events[i] == events[1..][i - 1];
      }
    }
  }
}

=== FILE: profile_card.dfy ===
/**
 * The `ProfileCard` tilt: a pointer move over the card stores the pointer as
 * percentages of the card's bounding rectangle, and the card rotates by a
 * tenth of a degree per percent away from the centre.
 */
module ProfileCard {
  import opened Wrappers
  import opened RealMath

  /** The card's bounding client rectangle. */
  datatype Rect = Rect(left: real, top: real, width: real, height: real)

  /** The `mousePos` state: pointer position in percent of the card. */
  datatype Pos = Pos(x: real, y: real)

  /** Rotation about the X and Y axes, in degrees. */
  datatype Rotation = Rotation(aboutX: real, aboutY: real)

  const Initial: Pos := Pos(0.0, 0.0)

  /** Position of `client` along an axis starting at `origin`, in percent of
    * `extent`. */
  function Percent(client: real, origin: real, extent: real): (r: real)
    requires extent > 0.0
    ensures client == origin ==> r == 0.0
    ensures client == origin + extent ==> r == 100.0
    ensures client < origin <==> r < 0.0
  {
    assert extent / extent == 1.0;
    (client - origin) / extent * 100.0
  }

  /** The client coordinate at `pct` percent along an axis. */
  function ClientAt(pct: real, origin: real, extent: real): real {
    origin + pct * extent / 100.0
  }

  /** A pointer move; without a mounted card the state is unchanged. */
  function OnMove(s: Pos, card: Option<Rect>, clientX: real, clientY: real): (r: Pos)
    requires card.Some? ==> card.value.width > 0.0 && card.value.height > 0.0
    ensures card.None? ==> r == s
    ensures card.Some? ==> ClientAt(r.x, card.value.left, card.value.width) == clientX
    ensures card.Some? ==> ClientAt(r.y, card.value.top, card.value.height) == clientY
  {
    match card
    case None => s
    case Some(rect) =>
      PercentRoundTrip(clientX, rect.left, rect.width);
      PercentRoundTrip(clientY, rect.top, rect.height);
      Pos(Percent(clientX, rect.left, rect.width), Percent(clientY, rect.top, rect.height))
  }

  /** The card's rotation for a stored pointer position. */
  function Tilt(p: Pos): (r: Rotation)
    ensures r.aboutX == 0.0 <==> p.y == 50.0
    ensures r.aboutY == 0.0 <==> p.x == 50.0
    ensures r.aboutX > 0.0 <==> p.y > 50.0
    ensures r.aboutY > 0.0 <==> p.x > 50.0
    ensures 10.0 * r.aboutX == p.y - 50.0 && 10.0 * r.aboutY == p.x - 50.0
  {
    Rotation((p.y - 50.0) * 0.1, (p.x - 50.0) * 0.1)
  }

  /** Converting a client coordinate to percent and back is the identity, and
    * so is the other direction. */
  lemma PercentRoundTrip(client: real, origin: real, extent: real)
    requires extent > 0.0
    ensures ClientAt(Percent(client, origin, extent), origin, extent) == client
  {
  }

  lemma ClientRoundTrip(pct: real, origin: real, extent: real)
    requires extent > 0.0
    ensures Percent(ClientAt(pct, origin, extent), origin, extent) == pct
  {
  }

  /** The centre of the card maps to (50, 50) and therefore no rotation. */
  lemma CentreIsFlat(rect: Rect)
    requires rect.width > 0.0 && rect.height > 0.0
    ensures OnMove(Initial, Some(rect), rect.left + rect.width / 2.0, rect.top + rect.height / 2.0) == Pos(50.0, 50.0)
    ensures Tilt(Pos(50.0, 50.0)) == Rotation(0.0, 0.0)
  {
  }

  /** A pointer inside the card maps into [0, 100] on each axis, so the card
    * tilts at most 5 degrees about either axis. */
  lemma InsideBounded(rect: Rect, clientX: real, clientY: real)
    requires rect.width > 0.0 && rect.height > 0.0
    requires rect.left <= clientX <= rect.left + rect.width
    requires rect.top <= clientY <= rect.top + rect.height
    ensures var p := OnMove(Initial, Some(rect), clientX, clientY);
      && 0.0 <= p.x <= 100.0 && 0.0 <= p.y <= 100.0
      && -5.0 <= Tilt(p).aboutX <= 5.0 && -5.0 <= Tilt(p).aboutY <= 5.0
  {
    DivUnit(clientX - rect.left, rect.width);
    DivUnit(clientY - rect.top, rect.height);
  }

  /** Before the first move the stored position is (0, 0): the card starts
    * tilted by -5 degrees about both axes. */
  lemma InitialTilt()
    ensures Tilt(Initial) == Rotation(-5.0, -5.0)
  {
  }
}

=== FILE: project_filter.dfy ===
/**
 * The project grid's category filter: the `'all'` filter shows the project
 * list as it is, any other filter the projects whose `category` equals it,
 * in their original order.
 */
module ProjectFilter {

  /** The fields of a project that the filter looks at or that identify it. */
  datatype Project = Project(title: string, category: string)

  /** The filter value that disables filtering. */
  const All: string := "all"

  /** The values of the filter buttons, in display order. */
  const Buttons: seq<string> := ["all", "dev", "design", "video"]

  /** The project list of the page. */
  const Catalogue: seq<Project> := [
    Project("Chatbot Akademik (TA)", "dev"),
    Project("Cont Solutions Indonesia", "dev"),
    Project("JakNews Portal", "design"),
    Project("KerjaSini Mobile", "design"),
    Project("Putra Budaya Yogya", "video"),
    Project("Informatika 2021", "video")
  ]

  /** `Array.prototype.filter` with the predicate `p.category === c`. */
  function Select(ps: seq<Project>, c: string): (r: seq<Project>)
    ensures |r| <= |ps|
    ensures forall i :: 0 <= i < |r| ==> r[i] in ps
    decreases |ps|
  {
    if |ps| == 0 then []
    else if ps[0].category == c then [ps[0]] + Select(ps[1..], c)
    else Select(ps[1..], c)
  }

  /** `filteredProjects` for the active filter. */
  function Filtered(ps: seq<Project>, active: string): (r: seq<Project>)
    ensures active == All ==> r == ps
    ensures active != All ==> forall i :: 0 <= i < |r| ==> r[i].category == active
  {
    if active == All then ps
    else
      SelectSound(ps, active);
      Select(ps, active)
  }

  /** `xs` can be obtained from `ys` by deleting elements. */
  ghost predicate Subsequence(xs: seq<Project>, ys: seq<Project>)
    decreases |ys|
  {
    if |xs| == 0 then true
    else if |ys| == 0 then false
    else (xs[0] == ys[0] && Subsequence(xs[1..], ys[1..])) || Subsequence(xs, ys[1..])
  }

  /** Every selected project has the requested category. */
  lemma {:induction false} SelectSound(ps: seq<Project>, c: string)
    ensures forall i :: 0 <= i < |Select(ps, c)| ==> Select(ps, c)[i].category == c
    decreases |ps|
  {
    if |ps| > 0 {
      SelectSound(ps[1..], c);
    }
  }

  /** Selection keeps every project of the category, as often as it occurs,
    * and no other project. */
  lemma {:induction false} SelectContents(ps: seq<Project>, c: string, p: Project)
    ensures multiset(Select(ps, c))[p] == if p.category == c then multiset(ps)[p] else 0
    decreases |ps|
  {
    if |ps| > 0 {
      SelectContents(ps[1..], c, p);
      assert ps == [ps[0]] + ps[1..];
    }
  }

  /** Selection preserves the order of the original list. */
  lemma {:induction false} SelectOrdered(ps: seq<Project>, c: string)
    ensures Subsequence(Select(ps, c), ps)
    decreases |ps|
  {
    if |ps| > 0 {
      SelectOrdered(ps[1..], c);
      if ps[0].category == c {
        assert Select(ps, c)[1..] == Select(ps[1..], c);
      }
    }
  }

  /** Filtering with the same category twice gives the result of filtering
    * once. */
  lemma {:induction false} FilterIdempotent(ps: seq<Project>, active: string)
    ensures Filtered(Filtered(ps, active), active) == Filtered(ps, active)
  {
    if active != All {
      SelectSound(ps, active);
      SelectOfSelected(Select(ps, active), active);
    }
  }

  lemma {:induction false} SelectOfSelected(ps: seq<Project>, c: string)
    requires forall i :: 0 <= i < |ps| ==> ps[i].category == c
    ensures Select(ps, c) == ps
    decreases |ps|
  {
    if |ps| > 0 {
      SelectOfSelected(ps[1..], c);
    }
  }

  /** A category no project has selects nothing. */
  lemma {:induction false} UnknownCategoryEmpty(ps: seq<Project>, c: string)
    requires c != All
    requires forall i :: 0 <= i < |ps| ==> ps[i].category != c
    ensures Filtered(ps, c) == []
    decreases |ps|
  {
    if |ps| > 0 {
      UnknownCategoryEmpty(ps[1..], c);
    }
  }

  /** On the page's own list, the `all` button shows the whole list and each
    * of the three category buttons shows two projects. */
  lemma CatalogueButtons()
    ensures Buttons[0] == All && Filtered(Catalogue, Buttons[0]) == Catalogue
    ensures |Filtered(Catalogue, Buttons[1])| == 2
    ensures |Filtered(Catalogue, Buttons[2])| == 2
    ensures |Filtered(Catalogue, Buttons[3])| == 2
  {
  }
}

=== FILE: real_math.dfy ===
/** Small facts about real numbers that several components use. */
module RealMath {

  function Min(a: real, b: real): real { if a <= b then a else b }
  function Max(a: real, b: real): real { if a <= b then b else a }
  function Abs(a: real): real { if a < 0.0 then -a else a }

  /** The product of two non-negative reals is non-negative; the solver does
    * not find this nonlinear fact on its own inside larger proofs. */
  lemma MulNonNegative(a: real, b: real)
    requires 0.0 <= a && 0.0 <= b
    ensures 0.0 <= a * b
  {
  }

  lemma DivSelf(d: real)
    requires d > 0.0
    ensures d / d == 1.0
  {
  }

  lemma DivStrict(a: real, b: real, d: real)
    requires 0.0 <= a <= b && 0.0 < d
    ensures 0.0 <= a / d <= b / d
    ensures a < b ==> a / d < b / d
  {
    assert b / d - a / d == (b - a) / d;
  }

  lemma FloorMonotone(a: real, b: real)
    requires a <= b
    ensures a.Floor <= b.Floor
  {
  }

  lemma ScaleMonotone(x: real, y: real, k: real)
    requires x <= y && 0.0 <= k
    ensures x * k <= y * k
  {
  }

  lemma DivMonotone(a: real, b: real, d: real)
    requires a <= b && 0.0 < d
    ensures a / d <= b / d
  {
    assert b / d - a / d == (b - a) / d;
  }

  /** Scaling by a factor in [0, 1] stays between 0 and the original. */
  lemma ScaleUnit(e: real, k: real)
    requires 0.0 <= e <= 1.0 && 0.0 <= k
    ensures 0.0 <= e * k <= k
  {
    MulNonNegative(e, k);
    MulNonNegative(1.0 - e, k);
    assert k - e * k == (1.0 - e) * k;
  }

  lemma MulAssoc(x: real, y: real, z: real)
    ensures x * (y * z) == (x * y) * z
  {
  }

  lemma MulPositive(a: real, b: real)
    requires 0.0 < a && 0.0 < b
    ensures 0.0 < a * b
  {
  }

  lemma DivUnit(a: real, d: real)
    requires 0.0 <= a <= d && 0.0 < d
    ensures 0.0 <= a / d <= 1.0
  {
    var q := a / d;
    assert q * d == a;
    if q > 1.0 {
      MulPositive(q - 1.0, d);
      assert false;
    }
    if q < 0.0 {
      MulPositive(-q, d);
      assert false;
    }
  }
}

=== FILE: rotating_text.dfy ===
/**
 * The `useRotatingText` hook: an interval tick advances the word index by
 * `(i + 1) % words.length`, and the hook returns `words[index]`.
 */
module RotatingText {
  import opened Wrappers

  /** The `index` state. With an empty word list JavaScript computes
    * `(i + 1) % 0`, which is NaN; NaN is kept as its own value. */
  datatype Index = At(i: nat) | NaN

  /** The index before the first tick. */
  const Initial: Index := At(0)

  /** One interval tick for a word list of length `len`. */
  function Tick(idx: Index, len: nat): (r: Index)
    ensures len == 0 ==> r == NaN
    ensures idx.NaN? ==> r == NaN
    ensures len > 0 && idx.At? ==> r.At? && r.i < len
    ensures len > 0 && idx.At? && idx.i + 1 < len ==> r == At(idx.i + 1)
    ensures len > 0 && idx.At? && idx.i + 1 == len ==> r == At(0)
  {
    match idx
    case NaN => NaN
    case At(i) => if len == 0 then NaN else At((i + 1) % len)
  }

  /** The index after `k` ticks from `idx`. */
  function Ticks(idx: Index, len: nat, k: nat): Index
    decreases k
  {
    if k == 0 then idx else Tick(Ticks(idx, len, k - 1), len)
  }

  /** The word the hook returns: `undefined` when the index is out of range. */
  function Current(words: seq<string>, idx: Index): (r: Option<string>)
    ensures r.Some? <==> idx.At? && idx.i < |words|
    ensures r.Some? ==> r.value == words[idx.i]
  {
    match idx
    case NaN => None
    case At(i) => if i < |words| then Some(words[i]) else None
  }

  lemma MulAtLeast(d: int, n: int)
    requires d >= 1 && n > 0
    ensures d * n >= n
  {
    assert d * n == (d - 1) * n + n;
  }

  lemma MulDiff(q: int, q': int, n: int)
    ensures q * n - q' * n == (q - q') * n
  {
  }

  lemma ModUnique(a: int, n: int, q: int, r: int)
    requires n > 0 && a == q * n + r && 0 <= r < n
    ensures a % n == r
  {
    var q', r' := a / n, a % n;
    assert a == q' * n + r';
    MulDiff(q, q', n);
    if q > q' {
      MulAtLeast(q - q', n);
    } else if q < q' {
      MulAtLeast(q' - q, n);
      MulDiff(q', q, n);
    }
  }

  lemma ModSucc(k: nat, len: nat)
    requires len > 0
    ensures (k % len + 1) % len == (k + 1) % len
  {
    var q, r := k / len, k % len;
    assert k == q * len + r;
    if r + 1 < len {
      ModUnique(k + 1, len, q, r + 1);
      ModUnique(r + 1, len, 0, r + 1);
    } else {
      ModUnique(k + 1, len, q + 1, 0);
      ModUnique(r + 1, len, 1, 0);
    }
  }

  /** After `k` ticks from the start, the index is `k mod len`. */
  lemma {:induction false} TicksFromStart(len: nat, k: nat)
    requires len > 0
    ensures Ticks(Initial, len, k) == At(k % len)
    decreases k
  {
    if k > 0 {
      TicksFromStart(len, k - 1);
      ModSucc(k - 1, len);
    }
  }

  /** With a non-empty word list the hook returns a word at every tick. */
  lemma AlwaysAWord(words: seq<string>, k: nat)
    requires |words| > 0
    ensures Current(words, Ticks(Initial, |words|, k)) == Some(words[k % |words|])
  {
    TicksFromStart(|words|, k);
  }

  /** With an empty word list the hook returns `undefined`, and every tick
    * leaves the index at NaN. */
  lemma {:induction false} EmptyWordsNaN(k: nat)
    requires k > 0
    ensures Ticks(Initial, 0, k) == NaN
    ensures Current([], Ticks(Initial, 0, k)) == None
  {
  }
}

=== FILE: scroll_progress.dfy ===
/**
 * The `ScrollProgress` bar: scroll events are coalesced into at most one
 * animation frame (the `ticking` flag), and the frame computes the bar width
 * from the metrics it reads at that moment.
 */
module ScrollProgress {
  import opened RealMath

  /** What a frame reads: `window.scrollY`, the document's `scrollHeight`
    * and `window.innerHeight`. */
  datatype Metrics = Metrics(scrollY: real, scrollHeight: real, innerHeight: real)

  /** The scrollable distance. */
  function DocHeight(m: Metrics): real {
    m.scrollHeight - m.innerHeight
  }

  /** Bar width in percent. The guard avoids dividing by a non-positive
    * distance; the value is not clamped. */
  function Progress(m: Metrics): (r: real)
    ensures DocHeight(m) <= 0.0 ==> r == 0.0
    ensures DocHeight(m) > 0.0 ==> r * DocHeight(m) == m.scrollY * 100.0
    ensures 0.0 <= m.scrollY <= DocHeight(m) ==> 0.0 <= r <= 100.0
  {
    if DocHeight(m) > 0.0 then m.scrollY / DocHeight(m) * 100.0 else 0.0
  }

  /** At the top of a scrollable page the bar is empty, at the bottom full. */
  lemma Endpoints(m: Metrics)
    requires DocHeight(m) > 0.0
    ensures m.scrollY == 0.0 ==> Progress(m) == 0.0
    ensures m.scrollY == DocHeight(m) ==> Progress(m) == 100.0
  {
  }

  /** A page no taller than the viewport shows an empty bar. */
  lemma ShortPageIsZero(m: Metrics)
    requires m.scrollHeight <= m.innerHeight
    ensures Progress(m) == 0.0
  {
  }

  /** Scrolling further down never shrinks the bar. */
  lemma Monotone(m: Metrics, m': Metrics)
    requires m.scrollHeight == m'.scrollHeight && m.innerHeight == m'.innerHeight
    requires m.scrollY <= m'.scrollY
    ensures Progress(m) <= Progress(m')
  {
    if DocHeight(m) > 0.0 {
      assert Progress(m') - Progress(m) == (m'.scrollY - m.scrollY) / DocHeight(m) * 100.0;
    }
  }

  /** Overscroll past either end leaves the range [0, 100]: nothing clamps. */
  lemma NotClamped(m: Metrics)
    requires DocHeight(m) > 0.0
    ensures m.scrollY > DocHeight(m) ==> Progress(m) > 100.0
    ensures m.scrollY < 0.0 ==> Progress(m) < 0.0
  {
    var d := DocHeight(m);
    if m.scrollY > d {
      var q := m.scrollY / d;
      assert q * d == m.scrollY;
      if q <= 1.0 {
        MulNonNegative(1.0 - q, d);
        assert false;
      }
    }
  }

  /** A 2000 px page in an 800 px viewport, scrolled to 600 px, is half read. */
  lemma HalfWay()
    ensures Progress(Metrics(600.0, 2000.0, 800.0)) == 50.0
  {
  }

  /**
   * `progress` is the React state, `ticking` the closure flag, and `pending`
   * the number of animation frames requested and not yet run.
   */
  datatype Tracker = Tracker(progress: real, ticking: bool, pending: nat)

  /** State after the effect registers the scroll listener. */
  const Mounted: Tracker := Tracker(0.0, false, 0)

  /** At most one frame is pending, exactly when `ticking` is set. */
  ghost predicate Throttled(s: Tracker) {
    s.pending == if s.ticking then 1 else 0
  }

  /** The bar starts empty, with no frame requested. */
  lemma MountedIdle()
    ensures Mounted.progress == 0.0 && !Mounted.ticking && Mounted.pending == 0
    ensures Throttled(Mounted)
  {
  }

  /** A scroll event: requests a frame unless one is already requested. */
  function OnScroll(s: Tracker): (r: Tracker)
    ensures s.ticking ==> r == s
    ensures !s.ticking ==> r.ticking && r.pending == s.pending + 1
    ensures r.progress == s.progress
  {
    if s.ticking then s else Tracker(s.progress, true, s.pending + 1)
  }

  /** The requested frame runs with the metrics of that moment; no frame runs
    * when none is requested. */
  function OnFrame(s: Tracker, m: Metrics): (r: Tracker)
    ensures s.pending == 0 ==> r == s
    ensures s.pending > 0 ==> !r.ticking && r.pending == s.pending - 1
    ensures s.pending > 0 ==> r.progress == Progress(m)
  {
    if s.pending == 0 then s else Tracker(Progress(m), false, s.pending - 1)
  }

  datatype Event = Scroll | Frame(m: Metrics)

  function Step(s: Tracker, e: Event): Tracker {
    match e
    case Scroll => OnScroll(s)
    case Frame(m) => OnFrame(s, m)
  }

  function Run(s: Tracker, es: seq<Event>): Tracker
    decreases |es|
  {
    if |es| == 0 then s else Run(Step(s, es[0]), es[1..])
  }

  /** A scroll while a frame is pending schedules nothing; every step keeps
    * at most one frame pending. */
  lemma StepThrottled(s: Tracker, e: Event)
    requires Throttled(s)
    ensures Throttled(Step(s, e))
    ensures Step(s, e).pending <= 1
    ensures e.Scroll? && s.ticking ==> Step(s, e) == s
  {
  }

  /** From mount, whatever the interleaving of scrolls and frames, at most one
    * frame is ever pending. */
  lemma {:induction false} RunThrottled(s: Tracker, es: seq<Event>)
    requires Throttled(s)
    ensures Throttled(Run(s, es)) && Run(s, es).pending <= 1
    decreases |es|
  {
    if |es| > 0 {
      StepThrottled(s, es[0]);
      RunThrottled(Step(s, es[0]), es[1..]);
    }
  }

  /** The result of a frame depends only on the metrics it reads: two trackers
    * with a pending frame end with the same width. */
  lemma NoAccumulation(s: Tracker, s': Tracker, m: Metrics)
    requires s.pending > 0 && s'.pending > 0
    ensures OnFrame(s, m).progress == OnFrame(s', m).progress
  {
  }

  /** The width shown after any run is the initial one or the one computed by
    * some frame of the run. */
  lemma {:induction false} RunProgressFromFrames(s: Tracker, es: seq<Event>)
    ensures Run(s, es).progress == s.progress
         || exists i :: 0 <= i < |es| && es[i].Frame? && Run(s, es).progress == Progress(es[i].m)
    decreases |es|
  {
    if |es| > 0 {
      var t := Step(s, es[0]);
      RunProgressFromFrames(t, es[1..]);
      if Run(s, es).progress != t.progress {
        var i :| 0 <= i < |es[1..]| && es[1..][i].Frame? && Run(t, es[1..]).progress == Progress(es[1..][i].m);
        assert es[i + 1] == es[1..][i];
      } else if t.progress != s.progress {
        assert es[0].Frame?;
      }
    }
  }

  /** Appending an event to a run is one more step after it. */
  lemma {:induction false} RunSnoc(s: Tracker, es: seq<Event>, e: Event)
    ensures Run(s, es + [e]) == Step(Run(s, es), e)
    decreases |es|
  {
    if |es| > 0 {
      assert (es + [e])[1..] == es[1..] + [e];
      RunSnoc(Step(s, es[0]), es[1..], e);
    }
  }

  /** A frame that runs after a scroll has requested it shows the progress
    * computed from the metrics that frame reads, whatever came before. */
  lemma LastFrameShown(s: Tracker, es: seq<Event>, m: Metrics)
    requires Throttled(s)
    ensures Run(s, es + [Scroll, Frame(m)]).progress == Progress(m)
  {
    RunThrottled(s, es);
    assert es + [Scroll, Frame(m)] == (es + [Scroll]) + [Frame(m)];
    RunSnoc(s, es, Scroll);
    RunSnoc(s, es + [Scroll], Frame(m));
  }
}

=== FILE: section_visibility.dfy ===
/**
 * The page's section visibility map: one IntersectionObserver watches every
 * section, and each entry of a callback writes `isIntersecting` under the
 * section's id. Unlike the one-shot reveal latch, a section can become
 * invisible again.
 */
module SectionVisibility {
  import opened Wrappers

  /** One IntersectionObserver entry: the target's `id` and its flag. */
  datatype Entry = Entry(id: string, isIntersecting: bool)

  /** The `isVisible` state. */
  type Visibility = map<string, bool>

  const Initial: Visibility := map[]

  /** What a lookup such as `isVisible.about` yields; a missing key is
    * `undefined`. */
  function Lookup(m: Visibility, id: string): Option<bool> {
    if id in m then Some(m[id]) else None
  }

  /** Whether a section renders as visible: an `undefined` entry is falsy. */
  function Shown(m: Visibility, id: string): bool {
    id in m && m[id]
  }

  /** The functional update queued for one entry. */
  function Update(m: Visibility, e: Entry): (r: Visibility)
    ensures r.Keys == m.Keys + {e.id}
    ensures Shown(r, e.id) <==> e.isIntersecting
    ensures forall id :: id != e.id ==> Lookup(r, id) == Lookup(m, id)
  {
    m[e.id := e.isIntersecting]
  }

  /** One callback: its entries' updates applied in order, the last one last. */
  function Callback(m: Visibility, es: seq<Entry>): (r: Visibility)
    ensures r.Keys == m.Keys + set i | 0 <= i < |es| :: es[i].id
    decreases |es|
  {
    if |es| == 0 then m else Update(Callback(m, es[..|es| - 1]), es[|es| - 1])
  }

  /** The flag of the last entry for `id`, if any entry targets it. */
  function LastFor(es: seq<Entry>, id: string): Option<bool>
    decreases |es|
  {
    if |es| == 0 then None
    else if es[|es| - 1].id == id then Some(es[|es| - 1].isIntersecting)
    else LastFor(es[..|es| - 1], id)
  }

  /** After a callback, a section's value is that of its last entry in the
    * batch; a section with no entry keeps its previous value. */
  lemma {:induction false} CallbackLastWins(m: Visibility, es: seq<Entry>, id: string)
    ensures Lookup(Callback(m, es), id) ==
      if LastFor(es, id).Some? then LastFor(es, id) else Lookup(m, id)
    decreases |es|
  {
    if |es| > 0 {
      CallbackLastWins(m, es[..|es| - 1], id);
    }
  }

  /** A section that was visible becomes invisible when it leaves the
    * viewport: the map is not a one-shot latch. */
  lemma CanHideAgain(m: Visibility, id: string)
    ensures Shown(Callback(m, [Entry(id, true)]), id)
    ensures !Shown(Callback(Callback(m, [Entry(id, true)]), [Entry(id, false)]), id)
  {
  }

  /** Before any callback no section is shown. */
  lemma NothingShownInitially(id: string)
    ensures !Shown(Initial, id) && Lookup(Initial, id) == None
  {
  }
}

=== FILE: typewriter.dfy ===
/**
 * The typing effect of the landing section: an interval reveals one more
 * character of `fullText` per tick, through a closure counter `index`, and
 * clears itself once the counter has passed the text's length.
 */
module Typewriter {

  /** The headline that is typed out. */
  const FullText: string := "Creative Developer & Digital Artist"

  /** `index` is the closure counter, `typed` the `typedText` state, and
    * `running` says the interval is still installed. */
  datatype Typer = Typer(index: nat, typed: string, running: bool)

  /** State right after the effect installs the interval. */
  const Mounted: Typer := Typer(0, "", true)

  /** One interval tick. */
  function Tick(s: Typer, full: string): (r: Typer)
    ensures !s.running ==> r == s
    ensures s.running && s.index <= |full| ==> r.running && r.index == s.index + 1
    ensures s.running && s.index > |full| ==> !r.running && r.typed == s.typed
  {
    if !s.running then s
    else if s.index <= |full| then Typer(s.index + 1, full[..s.index], true)
    else s.(running := false)
  }

  function Ticks(s: Typer, full: string, k: nat): Typer
    decreases k
  {
    if k == 0 then s else Tick(Ticks(s, full, k - 1), full)
  }

  /** Invariant of every state reachable from mount: the shown text is the
    * prefix of length `index - 1`, and a stopped typer shows the whole text. */
  ghost predicate Consistent(s: Typer, full: string) {
    && s.index <= |full| + 1
    && s.typed == full[..if s.index == 0 then 0 else s.index - 1]
    && (!s.running ==> s.index == |full| + 1 && s.typed == full)
  }

  /** Each tick keeps the invariant, and the shown text only grows, as a
    * prefix of the full text. */
  lemma TickGrows(s: Typer, full: string)
    requires Consistent(s, full)
    ensures Consistent(Tick(s, full), full)
    ensures |s.typed| <= |Tick(s, full).typed|
    ensures Tick(s, full).typed <= full
    ensures s.typed <= Tick(s, full).typed
  {
  }

  /** Tick `k` (counting from 1) shows the first `k - 1` characters, for as
    * long as `k - 1` does not pass the text's length. */
  lemma {:induction false} TickShowsPrefix(full: string, k: nat)
    requires 1 <= k <= |full| + 1
    ensures Ticks(Mounted, full, k) == Typer(k, full[..k - 1], true)
    decreases k
  {
    if k > 1 {
      TickShowsPrefix(full, k - 1);
    }
  }

  /** Every state reachable from mount is consistent. */
  lemma {:induction false} TicksConsistent(full: string, k: nat)
    ensures Consistent(Ticks(Mounted, full, k), full)
    decreases k
  {
    if k > 0 {
      TicksConsistent(full, k - 1);
      TickGrows(Ticks(Mounted, full, k - 1), full);
    }
  }

  /** After `|full| + 1` ticks the whole text is shown; the next tick clears
    * the interval, and from then on nothing changes. */
  lemma {:induction false} Finishes(full: string, k: nat)
    requires k >= |full| + 2
    ensures Ticks(Mounted, full, |full| + 1).typed == full
    ensures Ticks(Mounted, full, k) == Typer(|full| + 1, full, false)
    decreases k
  {
    TickShowsPrefix(full, |full| + 1);
    assert full[..|full|] == full;
    if k > |full| + 2 {
      Finishes(full, k - 1);
    }
  }

  /** The landing headline is complete after 36 ticks (3.6 s), and the 37th
    * tick clears the interval. */
  lemma HeadlineTyped()
    ensures Ticks(Mounted, FullText, 36).typed == FullText
    ensures !Ticks(Mounted, FullText, 37).running
  {
    assert |FullText| == 35;
    Finishes(FullText, 37);
  }
}

=== FILE: wrappers.dfy ===
/** Plain optional and success-or-error values shared by the component models. */
module Wrappers {

  /** A value that may be absent; JavaScript's `undefined` where a lookup misses. */
  datatype Option<+T> = None | Some(value: T)

  /** A computation that either yields a value or fails with a reason. */
  datatype Result<+R, +E> = Success(value: R) | Failure(error: E)
}
